=== FILE: README.md ===
# investor_gym simulation core in Dafny

A model of the simulation engine of `investor_gym`, a reinforcement-learning
environment in which an agent trades a small portfolio of simulated assets:

- **Asset** (`assets.dfy`, module `Assets`): one price that follows a geometric
  Brownian motion. Its generator keeps a running multiplier and multiplies it,
  once per tick, by `exp((mu - sigma^2 / 2) + sigma * Z)` for one standard-normal
  draw `Z` from the shared random state; the price is `initial_value * multiplier`.
- **Portfolio** (`portfolios.dfy`, module `Portfolios`): an ordered list of
  `(asset, amount)` holdings with its value, weights, asset and portfolio
  returns, a tick that advances every asset and shifts the last/current
  value, and a rebalance to a weight vector.
- **StartPortfolio** (`startportfolios.dfy`, module `StartPortfolios`): the
  bank / good_stock / bad_stock start portfolio, priced 1.0 each, with the
  10000 start cash placed on one of them by an in-place shuffle.
- **InvestorEnv bookkeeping** (`investor_envs.dfy`, module `InvestorEnvs`):
  action normalisation, the termination predicate, observation and reward,
  and the tick / step / reset sequence over the day counter and the portfolio.

Two supporting modules: `Reals` (`reals.dfy`: left-to-right sums and products
as Python evaluates them, and telescoping of consecutive ratios) and
`Randomness` (`randomness.dfy`: numpy's `RandomState` reduced to a fixed stream
of normal variates read in order, and a shuffle whose outcome is a given
permutation).

Prices and amounts are `real`. Logarithmic returns are modelled by their
ratios (`this / last`): the identity "the sum of the per-tick log returns is the
log of the total return" becomes "the product of the per-tick ratios is the
total ratio" (`Portfolios.CumulativeReturn`).

`Asset.reset` only restarts the multiplier: the last tick, the current tick and
the value stay as they were until the next tick. `Portfolio.rebalance` pairs
holdings with weights like Python's `zip`, so a shorter weight vector drops the
trailing holdings. No operation validates its input; where the code would
divide by zero the model has a precondition.

## Model

| member | source | states |
|---|---|---|
| Reals.Telescope | investor_gym/envs/portfolio.py:46-50 | the product of the ratios of consecutive recorded values, times the first, is the last |
| Randomness.PermutationOfThree | investor_gym/envs/startportfolio.py:40-41 | a shuffle of three holdings is one of the six orders |
| Randomness.RandomState.Normal | investor_gym/envs/asset.py:56-58 | a normal draw returns the next variate of the stream and advances the stream by exactly one |
| Randomness.RandomState.Shuffle | investor_gym/envs/startportfolio.py:40-41 | the array is permuted in place: afterwards position `i` holds the element that was at position `perm[i]`, and the length is unchanged |
| Assets.Growth | investor_gym/envs/asset.py:56-58 | a step factor `exp((mu - sigma^2 / 2) + sigma * z)` is positive, and with `sigma = 0` it is `exp(mu)` whatever was drawn |
| Assets.Multiplier | investor_gym/envs/asset.py:54-61 | the running multiplier stays positive: it starts at 1 and is only ever multiplied by positive step factors |
| Assets.MultiplierIsProduct | investor_gym/envs/asset.py:54-61 | the running multiplier is the product of the step factors of all draws so far, in order |
| Assets.MultiplierStep | investor_gym/envs/asset.py:56-61 | one more draw multiplies the multiplier by that draw's step factor |
| Assets.ZeroVolatilityMultiplier | investor_gym/envs/asset.py:56-58 | with `sigma = 0`, after `n` draws the multiplier is `exp(mu)^n` whatever the draws |
| Assets.ConstantMultiplier | investor_gym/envs/asset.py:56-58 | with `mu = sigma = 0` the multiplier stays 1 |
| Assets.Asset.constructor | investor_gym/envs/asset.py:8-24 | the parameters are stored (the name defaults to the empty string); last tick, current tick and value are the initial value; the generator starts at multiplier 1 with no draws |
| Assets.Asset.ReturnRatio | investor_gym/envs/asset.py:34-40 | the ratio times the last tick is the current tick; it is 1 when the two ticks are equal (log return 0) |
| Assets.Asset.Tick | investor_gym/envs/asset.py:42-45 | exactly one draw is taken from the shared random state, whatever `sigma`; the last tick becomes the former current tick; the returned price is the new current tick and the value; the generator invariant (price = initial value times multiplier of the draws) is kept |
| Assets.Asset.Reset | investor_gym/envs/asset.py:47-48 | the multiplier restarts at 1 with no draws; last tick, current tick and value are unchanged; the random state is untouched |
| Assets.PriceAfterTicks | investor_gym/envs/asset.py:54-61 | after `n > 0` ticks since construction or reset the price is the initial value times the product of those `n` step factors; the first tick after a reset gives the initial value times one fresh factor |
| Assets.ConstantPrice | investor_gym/envs/asset.py:56-59 | with `mu = sigma = 0` every generated price is the initial value |
| Assets.PricePositive | investor_gym/envs/asset.py:54-61 | a generated price is positive when the initial value is |
| Portfolios.TotalValueAppend | investor_gym/envs/portfolio.py:16-19 | the value is summed in holding order: appending a holding adds its `price * amount` to the value of the others |
| Portfolios.LongOnlyValue | investor_gym/envs/portfolio.py:16-19 | with no negative price and no negative amount the value is not negative and no holding's `price * amount` exceeds it |
| Portfolios.WeightsOf | investor_gym/envs/portfolio.py:34-40 | one share per holding; each share times the value is that holding's `price * amount`; whenever the value is nonzero the shares sum to 1 |
| Portfolios.RebalancedValue | investor_gym/envs/portfolio.py:52-57 | a rebalance yields as many amounts as the shorter of holdings and weights (`zip`), and the rebalanced holdings are worth the old value times the sum of the weights used |
| Portfolios.RebalancePreservesValue | investor_gym/envs/portfolio.py:52-57 | with one weight per holding summing to 1, a rebalance keeps the value |
| Portfolios.RebalanceReproducesWeights | investor_gym/envs/portfolio.py:52-57 | after such a rebalance from a nonzero value, the weights are exactly the requested ones |
| Portfolios.Portfolio.constructor | investor_gym/envs/portfolio.py:7-10 | the holdings are kept in order (the pairs read back are the ones given) and the last and current value are both the value (so the portfolio return ratio is 1) |
| Portfolios.Portfolio.Weights | investor_gym/envs/portfolio.py:34-40 | one weight per holding, `w_i * value = price_i * amount_i`, and they sum to 1 |
| Portfolios.Portfolio.AssetReturnRatios | investor_gym/envs/portfolio.py:21-24 | one return ratio per holding, in holding order, each the asset's current over last tick |
| Portfolios.Portfolio.PortfolioReturnRatio | investor_gym/envs/portfolio.py:26-28 | the ratio times the last value is the current value; it is 1 when they are equal |
| Portfolios.Portfolio.TickAssets | investor_gym/envs/portfolio.py:47-48 | every held asset takes exactly one step, in holding order, whatever random states the assets share: each random state advances by one draw per holding that draws from it, and the asset at position `i` takes the variate of its own state that follows the draws made before the tick and those of the holdings ahead of it on the same state |
| Portfolios.TickAt | investor_gym/envs/portfolio.py:47-48 | ticking the asset at one position takes the next variate of its random state, steps that asset once, advances no other random state and leaves every other held asset untouched |
| Portfolios.TickNext | investor_gym/envs/portfolio.py:47-48 | one turn of the tick loop: the next asset is ticked and the loop invariant (the assets so far stepped in order, the others untouched, each state advanced once per asset so far that draws from it) reaches one more position |
| Portfolios.SharedOccurrences | investor_gym/envs/startportfolio.py:20-34 | when all assets share one random state, every one of the first `n` draws from it |
| Portfolios.SeparateOccurrences | investor_gym/envs/portfolio.py:47-48 | when every asset has a random state of its own, each asset is the only one drawing from its state |
| Portfolios.SharedDraws | investor_gym/envs/portfolio.py:47-48 | with one shared random state, the tick gives the asset at position `i` the `i`-th variate after those drawn before, and the state advances by the number of holdings |
| Portfolios.SeparateDraws | investor_gym/envs/portfolio.py:47-48 | with a random state per asset, the tick gives each asset the next variate of its own state, and each state advances by exactly one draw |
| Portfolios.TickedAll | investor_gym/envs/portfolio.py:47-48 | when the tick loop has gone through every holding, each asset has stepped once from a snapshot of the assets taken before the tick |
| Portfolios.SteppedAgain | investor_gym/envs/portfolio.py:47-48 | stepping once from a snapshot of an earlier state is stepping once from that state, in holding order |
| Portfolios.Portfolio.RecordValue | investor_gym/envs/portfolio.py:49-50 | the current value becomes the last value and the value at the new prices the current one |
| Portfolios.Portfolio.Tick | investor_gym/envs/portfolio.py:46-50 | same holdings and number of holdings; every asset stepped once, drawing in holding order as in `TickAssets`; last value is the former current value and current value is the new value; a portfolio whose prices were nonzero has nonzero last ticks |
| Portfolios.Portfolio.Rebalance | investor_gym/envs/portfolio.py:52-57 | assets keep their positions, truncated to the weights' length, so the number of holdings becomes the smaller of the two; amounts are `value * w / price` from the value before; recorded values untouched; with a full weight vector summing to 1 the value is kept and the requested weights are reproduced |
| Portfolios.RebalancedValuePositive | investor_gym/envs/portfolio.py:52-57 | a rebalance from a positive value at positive prices to non-negative weights with a positive sum leaves holdings worth a positive amount at any positive prices |
| Portfolios.CumulativeReturn | investor_gym/envs/portfolio.py:46-50 | telescoping: the per-tick return ratios multiply to the current value over the value at construction (the current value may be 0), and the latest is the current portfolio return ratio (the identity test_portfolio_returns in investor_gym/envs/test/test.py asserts in log form) |
| StartPortfolios.StartSpecs | investor_gym/envs/startportfolio.py:12-35 | three assets priced 1.0: bank with `sigma = 0` and positive `mu`; good_stock with positive and bad_stock with the opposite negative `mu`; the stocks share one positive `sigma`; distinct names |
| StartPortfolios.StartAmounts | investor_gym/envs/startportfolio.py:37-41 | after the shuffle a holding has the start cash exactly when it came from the bank position and nothing otherwise |
| StartPortfolios.OneHoldingHasTheCash | investor_gym/envs/startportfolio.py:37-41 | whatever the shuffle, exactly one holding has 10000 and the other two have 0 |
| StartPortfolios.StartValue | investor_gym/envs/startportfolio.py:14-45 | at prices 1.0 the start portfolio is worth 10000 under every permutation |
| StartPortfolios.UntickedPermuted | investor_gym/envs/startportfolio.py:40-41 | shuffling keeps the assets distinct, unticked and on the shared random state |
| StartPortfolios.ShuffledStartIsStart | investor_gym/envs/startportfolio.py:43-45 | shuffled start assets with the shuffled amounts, just constructed, make a start portfolio, whose recorded history is the start cash alone |
| StartPortfolios.StartIsFlat | investor_gym/envs/startportfolio.py:43-45 | a start portfolio's asset return ratios are all 1 (log returns 0), its value is positive, and every asset's initial value and price are positive |
| StartPortfolios.NewStartAssets | investor_gym/envs/startportfolio.py:16-35 | three fresh, distinct assets with the given parameters on one random state, not yet ticked |
| StartPortfolios.ShuffledHoldings | investor_gym/envs/startportfolio.py:37-41 | the holdings list `(bank, 10000), (good, 0), (bad, 0)` after an in-place shuffle by `perm` |
| StartPortfolios.NewStartPortfolio | investor_gym/envs/startportfolio.py:8-45 | builds a start portfolio: three fresh assets sharing the random state, shuffled holdings, last and current value 10000, history `[10000]` |
| StartPortfolios.StartPortfolio.constructor | investor_gym/envs/startportfolio.py:8-45 | its portfolio is a fresh start portfolio for the given horizon, random state and shuffle |
| InvestorEnvs.Weights | investor_gym/envs/investor_env.py:74-77 | one weight per action component, in order; the empty action gives no weights (its zero sum is never divided by) |
| InvestorEnvs.WeightScalesBack | investor_gym/envs/investor_env.py:74-77 | each weight times the action's sum gives back the component it came from |
| InvestorEnvs.WeightsSumToOne | investor_gym/envs/investor_env.py:74-77 | the weights sum to 1 |
| InvestorEnvs.WeightsAreProportions | investor_gym/envs/investor_env.py:74-77 | for a non-negative action with positive sum each weight is in `[0, 1]` |
| InvestorEnvs.WeightsIdempotent | investor_gym/envs/investor_env.py:74-77 | normalising already normalised weights changes nothing |
| InvestorEnvs.InvestorEnv.Observation | investor_gym/envs/investor_env.py:32-34 | one return ratio per holding, each current over last tick |
| InvestorEnvs.InvestorEnv.Reward | investor_gym/envs/investor_env.py:36-38 | the portfolio's return ratio: times the last value it is the current value |
| InvestorEnvs.SteppedSolvent | investor_gym/envs/investor_env.py:48-52 | after a rebalance from a positive value at positive prices to non-negative weights with a positive sum, and a tick of every held asset, every price and the portfolio's value are positive (exp being positive) |
| InvestorEnvs.InvestorEnv.constructor | investor_gym/envs/investor_env.py:13-21 | stores the horizon and random state and starts an episode: day 0 and a fresh start portfolio; the environment is solvent (positive initial values and prices, positive recorded value) |
| InvestorEnvs.InvestorEnv.Tick | investor_gym/envs/investor_env.py:44-46 | the portfolio (the same object) ticks once and the day goes up by exactly 1: every held asset takes exactly one step, drawing from its random state in holding order, and the portfolio's last value is its former current value |
| InvestorEnvs.InvestorEnv.StaysSolvent | investor_gym/envs/investor_env.py:48-52 | a step from a solvent state to a long-only action (one non-negative entry per holding, positive sum) leaves the environment solvent, exp being positive |
| InvestorEnvs.InvestorEnv.RebalanceHoldings | investor_gym/envs/investor_env.py:49-50 | the rebalance half of a step: holdings truncated as by `zip`, amounts from the value before, nonzero prices, recorded values kept, and the held assets' draws, ticks and random states as they were |
| InvestorEnvs.InvestorEnv.Advance | investor_gym/envs/investor_env.py:49-51 | the state change of a step: day + 1, holdings truncated as by the rebalance, amounts from the value before the step, last value the former current value, current value the value after the tick; every asset still held takes exactly one step, drawing from its random state in holding order |
| InvestorEnvs.InvestorEnv.Step | investor_gym/envs/investor_env.py:48-52 | rebalances to the normalised action at the prices before the step, then ticks: day + 1, holdings truncated as by the rebalance, amounts from the value before the step, last value the former current value; returns the observation, reward and done of the new state, and done holds once the day reaches the horizon; every asset still held takes exactly one step, drawing in holding order, and from a solvent state a long-only action leaves the environment solvent, so the next step's preconditions hold again |
| InvestorEnvs.InvestorEnv.Reset | investor_gym/envs/investor_env.py:54-58 | day 0 and a fresh start portfolio, solvent; the episode is not over (`done` is false) and the observation is `(1, 1, 1)` |

## Left out

- `np.exp` is the constant `Assets.Exp`, whose values are not computed; the proofs use only that it is positive and that `exp(0) == 1` (`IsExponential`), as a precondition where needed.
- `np.log` is not modelled: asset and portfolio returns are the ratios whose logarithms `log_return` and `portfolio_return` return. `np.sqrt(2 / num_days)` is the parameter `sigmaScale`, required only to be positive: the square root is not computed.
- Floating-point rounding: everything is exact real arithmetic.
- numpy's `RandomState`: the normal variates are a fixed stream `normals`; which permutation `shuffle` picks is the parameter `perm`; the variates `shuffle` itself consumes from the stream are not modelled.
- `InvestorEnv._seed`, `gym.Env` subclassing, `metadata`, `reward_range`, the action and observation spaces, `info` and `_render`: framework and display code. The environment's random state is a constructor parameter.
- `train.py` (the training loop) and `custom_types.py` (type aliases): not part of this model.
- Division by zero: Python would raise or produce `inf`/`nan`; the model requires a nonzero sum of a non-empty action, nonzero prices for rebalanced holdings, nonzero last ticks for the observation, a nonzero last value for the reward, a nonzero value for `Portfolio.Weights` (which also excludes the empty portfolio, for which `weights` returns `()`), and `numDays > 0` for the `1 / num_days` of the start portfolio.
- Portfolios.Portfolio.Tick: requires the held assets to be distinct objects; `Portfolio.tick` would tick an asset held twice twice.
- The holdings tuple is kept as two parallel sequences, `assets` and `amounts`; `Portfolio.Holdings` gives back the pairs.
- The default horizon of 100 days in `InvestorEnv.__init__` is not modelled: the constructor takes the horizon explicitly, together with `sigmaScale`, which depends on it.
- `Portfolio.names` (the tuple of asset names) is not modelled: no other operation reads it; each asset keeps its `name`.
- InvestorEnvs.InvestorEnv.Tick: adds 1 to the day before ticking the portfolio, where `InvestorEnv.tick` ticks first; the two updates touch disjoint state, and the contract is the same in either order.
- InvestorEnvs.InvestorEnv.Step: steps are shown to chain only for long-only actions with one entry per holding; for other actions the new value may be 0 and then the next reward's nonzero last value is not re-established (the program would divide by zero there).
- InvestorEnvs.InvestorEnv.Reset: the shuffle of the new start portfolio draws from the environment's random state, as `StartPortfolio` does; which order it yields is the parameter `perm`.

=== FILE: assets.dfy ===
/**
 * One asset whose price follows a geometric Brownian motion (asset.py).
 *
 * investor_gym's price generator keeps a running multiplier and, on every
 * step, multiplies it by `exp((mu - sigma^2 / 2) + sigma * Z)` for one fresh
 * standard-normal draw `Z`; the price is `initial_value * multiplier`. Here
 * the generator's local state is the field `multiplier`, the draws come from
 * the shared `RandomState`, and the exponential is the constant `Exp`.
 */
module Assets {
  import opened Reals
  import opened Randomness

  /**
   * The exponential function. Its values are not computed here: what the
   * proofs use of it is stated by `IsExponential`.
   */
  const Exp: real -> real

  /** What the model needs of the exponential: it is positive and `Exp(0) == 1`. */
  ghost predicate IsExponential()
  {
    Exp(0.0) == 1.0 && forall x :: Exp(x) > 0.0
  }

  /** The exponent of one step's growth factor for the draw `z`. */
  function StepExponent(mu: real, sigma: real, z: real): (e: real)
  {
    (mu - sigma * sigma / 2.0) + sigma * z
  }

  /**
   * One step's growth factor `Exp(exponent)`. It is positive, and without
   * volatility the draw does not matter: the factor is `Exp(mu)`.
   */
  function Growth(mu: real, sigma: real, z: real): (g: real)
    ensures IsExponential() ==> g > 0.0
    ensures sigma == 0.0 ==> g == Exp(mu)
  {
    assert sigma == 0.0 ==> StepExponent(mu, sigma, z) == mu;
    Exp(StepExponent(mu, sigma, z))
  }

  /**
   * The generator's multiplier after consuming the draws `zs`, in order, from
   * 1.0. Every growth factor is positive, so every multiplier is.
   */
  function Multiplier(mu: real, sigma: real, zs: seq<real>): (m: real)
    ensures IsExponential() ==> m > 0.0
  {
    if |zs| == 0 then 1.0
    else
      var front, g := Multiplier(mu, sigma, zs[..|zs| - 1]), Growth(mu, sigma, zs[|zs| - 1]);
      PositiveTimesPositive(front, g);
      front * g
  }

  /** The growth factor of each draw, in draw order. */
  function Growths(mu: real, sigma: real, zs: seq<real>): (g: seq<real>)
  {
    seq(|zs|, i requires 0 <= i < |zs| => Growth(mu, sigma, zs[i]))
  }

  /** The running multiplier is the product of the growth factors of the draws so far. */
  lemma {:induction false} MultiplierIsProduct(mu: real, sigma: real, zs: seq<real>)
    ensures Multiplier(mu, sigma, zs) == Product(Growths(mu, sigma, zs))
  {
    if |zs| > 0 {
      var n := |zs|;
      MultiplierIsProduct(mu, sigma, zs[..n - 1]);
      assert Growths(mu, sigma, zs)[..n - 1] == Growths(mu, sigma, zs[..n - 1]);
    }
  }

  /** One more draw multiplies the multiplier by that draw's growth factor. */
  lemma MultiplierStep(mu: real, sigma: real, zs: seq<real>, z: real)
    ensures Multiplier(mu, sigma, zs + [z]) == Multiplier(mu, sigma, zs) * Growth(mu, sigma, z)
  {
    assert (zs + [z])[..|zs|] == zs;
  }

  /**
   * Without volatility the path is deterministic: whatever was drawn, after
   * `n` draws the multiplier is `Exp(mu)` to the `n`.
   */
  lemma {:induction false} ZeroVolatilityMultiplier(mu: real, zs: seq<real>)
    ensures Multiplier(mu, 0.0, zs) == Power(Exp(mu), |zs|)
  {
    if |zs| > 0 {
      ZeroVolatilityMultiplier(mu, zs[..|zs| - 1]);
    }
  }

  /** Without drift and without volatility the multiplier stays 1.0. */
  lemma ConstantMultiplier(zs: seq<real>)
    requires Exp(0.0) == 1.0
    ensures Multiplier(0.0, 0.0, zs) == 1.0
  {
    ZeroVolatilityMultiplier(0.0, zs);
    PowerOfOne(|zs|);
  }

  class Asset {
    const name: string
    const randomState: RandomState
    const mu: real
    const sigma: real
    const initialValue: real
    /** The running multiplier of the price generator. */
    var multiplier: real
    var lastTick: real
    var thisTick: real
    var value: real
    /** The draws the current generator has consumed, oldest first. */
    ghost var draws: seq<real>

    ghost predicate Valid()
      reads this
    {
      multiplier == Multiplier(mu, sigma, draws) &&
      thisTick == value &&
      (|draws| > 0 ==> value == initialValue * multiplier)
    }

    constructor (mu: real, sigma: real, initialValue: real, randomState: RandomState, name: string := "")
      ensures Valid()
      ensures this.mu == mu && this.sigma == sigma && this.initialValue == initialValue
      ensures this.randomState == randomState && this.name == name
      ensures lastTick == thisTick == value == initialValue
      ensures multiplier == 1.0 && draws == []
    {
      this.name := name;
      this.randomState := randomState;
      this.mu := mu;
      this.sigma := sigma;
      this.initialValue := initialValue;
      multiplier := 1.0;
      draws := [];
      lastTick := initialValue;
      thisTick := initialValue;
      value := initialValue;
    }

    /** The gross return `thisTick / lastTick`, whose logarithm is `Asset.log_return`. */
    function ReturnRatio(): (r: real)
      reads this
      requires lastTick != 0.0
      ensures r * lastTick == thisTick
      ensures thisTick == lastTick ==> r == 1.0
    {
      thisTick / lastTick
    }

    /**
     * Between the two states the asset took exactly one step: one more draw
     * on top of the earlier ones, and the former current tick is now the last.
     */
    twostate predicate Stepped()
      reads this
    {
      |draws| == |old(draws)| + 1 && old(draws) <= draws &&
      lastTick == old(thisTick)
    }

    /**
     * Advances the price by one step: draws one variate from the shared
     * random state (whatever `sigma` is) and returns the new price.
     */
    method Tick() returns (price: real)
      requires Valid()
      modifies this, randomState
      ensures Valid()
      ensures randomState.drawn == old(randomState.drawn) + 1
      ensures draws == old(draws) + [randomState.Variate(old(randomState.drawn))]
      ensures lastTick == old(thisTick) && Stepped()
      ensures price == thisTick == value
    {
      var z := randomState.Normal();
      var newMultiplier := multiplier * Growth(mu, sigma, z);
      ghost var newDraws := draws + [z];
      assert newMultiplier == Multiplier(mu, sigma, newDraws) by {
        MultiplierStep(mu, sigma, draws, z);
      }
      assert newDraws[..|draws|] == draws;
      var newValue := initialValue * newMultiplier;
      multiplier, draws, lastTick, thisTick, value := newMultiplier, newDraws, thisTick, newValue, newValue;
      price := newValue;
    }

    /**
     * Restarts the price generator: the multiplier is back at 1.0, but the
     * last and current ticks and the value stay what they were until the next
     * tick. The random state is neither reseeded nor advanced.
     */
    method Reset()
      requires Valid()
      modifies this
      ensures Valid()
      ensures multiplier == 1.0 && draws == []
      ensures lastTick == old(lastTick) && thisTick == old(thisTick) && value == old(value)
      ensures unchanged(randomState)
    {
      multiplier := 1.0;
      draws := [];
    }
  }

  /**
   * After `n > 0` ticks since construction or the last reset, the price is the
   * initial value times the `n` growth factors of those ticks' draws; in
   * particular the first tick after a reset yields the initial value times
   * one fresh factor, whatever the price was before.
   */
  lemma PriceAfterTicks(a: Asset)
    requires a.Valid() && |a.draws| > 0
    ensures a.value == a.initialValue * Product(Growths(a.mu, a.sigma, a.draws))
    ensures |a.draws| == 1 ==> a.value == a.initialValue * Growth(a.mu, a.sigma, a.draws[0])
  {
    MultiplierIsProduct(a.mu, a.sigma, a.draws);
    if |a.draws| == 1 {
      assert a.draws[..0] == [];
    }
  }

  /** Without drift and without volatility every generated price is the initial value. */
  lemma ConstantPrice(a: Asset)
    requires a.Valid() && a.mu == 0.0 && a.sigma == 0.0 && Exp(0.0) == 1.0
    requires |a.draws| > 0
    ensures a.value == a.initialValue && a.thisTick == a.initialValue
  {
    ConstantMultiplier(a.draws);
  }

  /**
   * Once the generator has produced a price, that price is positive when the
   * initial value is: it is the initial value times a product of positive
   * growth factors.
   */
  lemma PricePositive(a: Asset)
    requires a.Valid() && IsExponential()
    requires |a.draws| > 0 && a.initialValue > 0.0
    ensures a.value > 0.0 && a.thisTick > 0.0
  {
    PositiveTimesPositive(a.initialValue, a.multiplier);
  }
}

=== FILE: investor_envs.dfy ===
/**
 * The bookkeeping of the trading environment (investor_env.py): an episode
 * of `numDays` days over a start portfolio. Each step turns the agent's
 * action into weights, rebalances the portfolio to them, lets one day pass
 * and reports the assets' returns, the portfolio's return and whether the
 * episode is over.
 */
module InvestorEnvs {
  import opened Reals
  import opened Randomness
  import opened Assets
  import opened Portfolios
  import opened StartPortfolios

  /**
   * The action divided by its sum, component by component, in order. An
   * empty action gives no weights, without dividing.
   */
  function Weights(action: seq<real>): (w: seq<real>)
    requires |action| == 0 || Sum(action) != 0.0
    ensures |w| == |action|
  {
    if |action| == 0 then [] else DivideAll(action, Sum(action))
  }

  /** Each weight times the action's sum is the component it came from. */
  lemma WeightScalesBack(action: seq<real>, i: nat)
    requires Sum(action) != 0.0 && i < |action|
    ensures Weights(action)[i] * Sum(action) == action[i]
  {
    WeightsOfNonempty(action);
    ScaleBackAt(action, Sum(action), i);
  }

  lemma WeightsOfNonempty(action: seq<real>)
    requires |action| > 0 && Sum(action) != 0.0
    ensures Weights(action) == DivideAll(action, Sum(action))
  {
  }

  lemma ScaleBackAt(a: seq<real>, d: real, i: nat)
    requires d != 0.0 && i < |a|
    ensures DivideAll(a, d)[i] * d == a[i]
  {
  }

  /** The weights sum to one. */
  lemma WeightsSumToOne(action: seq<real>)
    requires Sum(action) != 0.0
    ensures Sum(Weights(action)) == 1.0
  {
    SumDivideAll(action, Sum(action));
  }

  /** For a non-negative action with a positive sum every weight is a proportion in `[0, 1]`. */
  lemma WeightsAreProportions(action: seq<real>)
    requires forall i :: 0 <= i < |action| ==> action[i] >= 0.0
    requires Sum(action) > 0.0
    ensures forall i :: 0 <= i < |action| ==> 0.0 <= Weights(action)[i] <= 1.0
  {
    var w := Weights(action);
    forall i | 0 <= i < |action|
      ensures 0.0 <= w[i] <= 1.0
    {
      ElementAtMostSum(action, i);
      QuotientInUnitInterval(action[i], Sum(action));
    }
  }

  lemma QuotientInUnitInterval(a: real, s: real)
    requires 0.0 <= a <= s && s > 0.0
    ensures 0.0 <= a / s <= 1.0
  {
  }

  /** Normalising weights that already sum to one leaves them as they are. */
  lemma WeightsIdempotent(action: seq<real>)
    requires Sum(action) != 0.0
    ensures Sum(Weights(action)) != 0.0
    ensures Weights(Weights(action)) == Weights(action)
  {
    WeightsSumToOne(action);
    var w := Weights(action);
    assert forall i :: 0 <= i < |w| ==> Weights(w)[i] == w[i] / 1.0;
  }

  /**
   * A long-only action over `n` holdings: one non-negative entry per holding,
   * and not all of them zero.
   */
  predicate LongOnly(action: seq<real>, n: nat)
  {
    |action| == n && (forall i :: 0 <= i < |action| ==> action[i] >= 0.0) && Sum(action) > 0.0
  }

  /**
   * After a rebalance from a positive value at positive prices to
   * non-negative weights with a positive sum, and a tick of every asset, each
   * price is positive again (the exponential being positive) and so is the
   * portfolio's value.
   */
  lemma SteppedSolvent(p: Portfolio, value: real, prices: seq<real>, weights: seq<real>)
    requires |p.assets| == |p.amounts| && p.AssetsValid()
    requires forall i :: 0 <= i < |p.assets| ==> |p.assets[i].draws| > 0
    requires forall i :: 0 <= i < |p.assets| ==> p.assets[i].initialValue > 0.0
    requires |prices| == |weights| == |p.assets| && value > 0.0
    requires forall i :: 0 <= i < |prices| ==> prices[i] > 0.0
    requires forall i :: 0 <= i < |weights| ==> weights[i] >= 0.0
    requires Sum(weights) > 0.0 && p.amounts == RebalancedAmounts(value, prices, weights)
    ensures IsExponential() ==> (forall i :: 0 <= i < |p.assets| ==> p.assets[i].value > 0.0) && p.Value() > 0.0
  {
    if IsExponential() {
      forall i | 0 <= i < |p.assets|
        ensures p.assets[i].value > 0.0
      {
        PricePositive(p.assets[i]);
      }
      RebalancedValuePositive(value, prices, weights, p.Ticks());
    }
  }

  class InvestorEnv {
    const numDays: nat
    /** Stands for `sqrt(2 / numDays)`, which scales the stocks' volatility. */
    const sigmaScale: real
    /** The environment's random state, which every start portfolio draws from. */
    const randomState: RandomState
    var day: nat
    var portfolio: Portfolio

    ghost predicate Valid()
      reads this`portfolio, portfolio, portfolio.assets
    {
      Scaled() && portfolio.Valid() && Distinct(portfolio.assets)
    }

    /** The constants the environment was built with are usable for a new start portfolio. */
    predicate Scaled() {
      IsSigmaScale(sigmaScale, numDays)
    }

    /**
     * Every held asset has a positive initial value and a positive price, and
     * the portfolio, worth something at those prices, has recorded that
     * value. This is what `Step` needs of the state before it.
     */
    ghost predicate Solvent()
      reads this`portfolio, portfolio, portfolio.assets
    {
      |portfolio.assets| == |portfolio.amounts| &&
      (forall i :: 0 <= i < |portfolio.assets| ==>
        portfolio.assets[i].initialValue > 0.0 && portfolio.assets[i].value > 0.0) &&
      portfolio.thisValue == portfolio.Value() && portfolio.Value() > 0.0
    }

    /** The episode is over once the portfolio is worth nothing or the last day is reached. */
    function Done(): (d: bool)
      reads this`day, this`portfolio, portfolio, portfolio.assets
      requires |portfolio.assets| == |portfolio.amounts|
    {
      portfolio.Value() <= 0.0 || day >= numDays
    }

    /** The assets' return ratios, whose logarithms are the environment's observation. */
    function Observation(): (o: seq<real>)
      reads this`portfolio, portfolio, portfolio.assets
      requires portfolio.NonzeroLastTicks()
      ensures |o| == portfolio.Size()
      ensures forall i :: 0 <= i < |o| ==> o[i] * portfolio.assets[i].lastTick == portfolio.assets[i].thisTick
    {
      portfolio.AssetReturnRatios()
    }

    /** The portfolio's return ratio, whose logarithm is the environment's reward. */
    function Reward(): (r: real)
      reads this`portfolio, portfolio
      requires portfolio.lastValue != 0.0
      ensures r * portfolio.lastValue == portfolio.thisValue
    {
      portfolio.PortfolioReturnRatio()
    }

    /**
     * Sets up the environment with its random state and starts the first
     * episode; `perm` is the outcome of that episode's shuffle.
     */
    constructor (numDays: nat, sigmaScale: real, randomState: RandomState,
                 perm: seq<nat>)
      requires IsSigmaScale(sigmaScale, numDays) && IsPermutation(perm, 3)
      ensures this.numDays == numDays && this.sigmaScale == sigmaScale
      ensures this.randomState == randomState
      ensures Valid() && day == 0 && fresh(portfolio) && Solvent()
      ensures IsStart(portfolio, numDays, sigmaScale, randomState, perm)
    {
      this.numDays := numDays;
      this.sigmaScale := sigmaScale;
      this.randomState := randomState;
      var start := new StartPortfolio(numDays, sigmaScale, randomState, perm);
      portfolio := start.portfolio;
      day := 0;
      new;
      assert Scaled();
      StartIsFlat(portfolio, numDays, sigmaScale, randomState, perm);
    }

    /**
     * Starts a new episode: day 0 and a fresh start portfolio, built with the
     * environment's random state; `perm` is the outcome of its shuffle. The
     * episode is not over, and every asset's return ratio is 1 (a log return of 0).
     */
    method Reset(perm: seq<nat>) returns (observation: seq<real>)
      requires Scaled() && IsPermutation(perm, 3)
      modifies this
      ensures Valid() && day == 0 && fresh(portfolio) && Solvent()
      ensures IsStart(portfolio, numDays, sigmaScale, randomState, perm)
      ensures !Done()
      ensures portfolio.NonzeroLastTicks() && observation == Observation()
      ensures observation == [1.0, 1.0, 1.0]
    {
      var start := new StartPortfolio(numDays, sigmaScale, randomState, perm);
      portfolio := start.portfolio;
      day := 0;
      StartIsFlat(portfolio, numDays, sigmaScale, randomState, perm);
      observation := Observation();
    }

    /**
     * A step that rebalanced a positive value at positive prices to the
     * weights of a long-only action, and then ticked every held asset, leaves
     * the environment solvent: the assets still held are among the earlier
     * ones, whose initial values are positive, and each has a fresh price.
     */
    twostate lemma StaysSolvent(action: seq<real>)
      requires old(|portfolio.assets| == |portfolio.amounts|) && Valid()
      requires portfolio.assets == old(portfolio.assets)[..Min(old(|portfolio.assets|), |action|)]
      requires |action| == 0 || Sum(action) != 0.0
      requires old(forall i :: 0 <= i < |portfolio.assets| && i < |action| ==> portfolio.assets[i].value != 0.0)
      requires portfolio.amounts == RebalancedAmounts(old(portfolio.Value()), old(portfolio.Ticks()), Weights(action))
      requires portfolio.thisValue == portfolio.Value()
      requires forall i :: 0 <= i < |portfolio.assets| ==> |portfolio.assets[i].draws| > 0
      ensures old(Solvent()) && IsExponential() && LongOnly(action, old(|portfolio.assets|)) ==> Solvent()
    {
      if old(Solvent()) && LongOnly(action, old(|portfolio.assets|)) {
        ghost var assets, value, prices := old(portfolio.assets), old(portfolio.Value()), old(portfolio.Ticks());
        assert value > 0.0 && forall i :: 0 <= i < |prices| ==> prices[i] > 0.0;
        assert forall i :: 0 <= i < |assets| ==> assets[i].initialValue > 0.0;
        assert portfolio.assets == assets;
        WeightsAreProportions(action);
        WeightsSumToOne(action);
        SteppedSolvent(portfolio, value, prices, Weights(action));
      }
    }

    /**
     * Advances the day counter by one and the portfolio by one tick. Neither
     * update reads what the other writes, so their order does not matter.
     */
    method Tick()
      requires Valid()
      modifies this`day, portfolio, portfolio.assets, portfolio.RandomStates()
      ensures Valid() && day == old(day) + 1 && portfolio == old(portfolio) && portfolio.Ticked()
      ensures old(portfolio.NonzeroPrices()) ==> portfolio.NonzeroLastTicks()
      ensures AllStepped(portfolio.assets) && DrewInOrder(portfolio.assets)
    {
      ghost var books := portfolio.Books();
      day := day + 1;
      assert books == portfolio.Books();
      portfolio.Tick();
      SteppedAgain(books.snapshot);
    }

    /**
     * The first half of a step: rebalances the portfolio to the normalised
     * action at the current prices. The ghost result records the draws, the
     * last prices and the random states of the assets still held, which the
     * rebalance leaves as they were.
     */
    method RebalanceHoldings(action: seq<real>) returns (ghost before: Snapshot)
      requires Valid() && (|action| == 0 || Sum(action) != 0.0)
      requires forall i :: 0 <= i < |portfolio.assets| && i < |action| ==> portfolio.assets[i].value != 0.0
      modifies portfolio
      ensures Valid() && portfolio.NonzeroPrices()
      ensures portfolio.assets == old(portfolio.assets)[..Min(old(|portfolio.assets|), |action|)]
      ensures portfolio.amounts == RebalancedAmounts(old(portfolio.Value()), old(portfolio.Ticks()), Weights(action))
      ensures portfolio.lastValue == old(portfolio.lastValue) && portfolio.thisValue == old(portfolio.thisValue)
      ensures before.assets == portfolio.assets && before == SnapshotOf(portfolio.assets)
      ensures before == old(SnapshotOf(before.assets))
    {
      var weights := Weights(action);
      DistinctPrefix(portfolio.assets, Min(|portfolio.assets|, |weights|));
      portfolio.Rebalance(weights);
      before := SnapshotOf(portfolio.assets);
    }

    /**
     * The state change of a step: rebalances the portfolio to the normalised
     * action, at the prices before the step, and ticks it. Every asset still
     * held takes one step, drawing from its random state in holding order.
     */
    method Advance(action: seq<real>)
      requires Valid() && (|action| == 0 || Sum(action) != 0.0)
      requires forall i :: 0 <= i < |portfolio.assets| && i < |action| ==> portfolio.assets[i].value != 0.0
      requires portfolio.thisValue != 0.0
      modifies this`day, portfolio, portfolio.assets, portfolio.RandomStates()
      ensures Valid() && day == old(day) + 1
      ensures portfolio.assets == old(portfolio.assets)[..Min(old(|portfolio.assets|), |action|)]
      ensures portfolio.amounts == RebalancedAmounts(old(portfolio.Value()), old(portfolio.Ticks()), Weights(action))
      ensures portfolio.lastValue == old(portfolio.thisValue) && portfolio.thisValue == portfolio.Value()
      ensures portfolio.NonzeroLastTicks()
      ensures AllStepped(portfolio.assets) && DrewInOrder(portfolio.assets)
    {
      ghost var before := RebalanceHoldings(action);
      Tick();
      assert portfolio.assets == before.assets;
      SteppedAgain(before);
    }

    /**
     * One step of an episode: rebalances the portfolio to the normalised
     * action (at the prices before the step), ticks it, and returns the
     * observation, the reward and whether the episode is over.
     */
    method Step(action: seq<real>) returns (observation: seq<real>, reward: real, done: bool)
      requires Valid() && (|action| == 0 || Sum(action) != 0.0)
      requires forall i :: 0 <= i < |portfolio.assets| && i < |action| ==> portfolio.assets[i].value != 0.0
      requires portfolio.thisValue != 0.0
      modifies this`day, portfolio, portfolio.assets, portfolio.RandomStates()
      ensures Valid() && day == old(day) + 1
      ensures portfolio.assets == old(portfolio.assets)[..Min(old(|portfolio.assets|), |action|)]
      ensures portfolio.amounts == RebalancedAmounts(old(portfolio.Value()), old(portfolio.Ticks()), Weights(action))
      ensures portfolio.lastValue == old(portfolio.thisValue) && portfolio.thisValue == portfolio.Value()
      ensures portfolio.NonzeroLastTicks() && observation == Observation()
      ensures reward == Reward() && done == Done()
      ensures day >= numDays ==> done
      ensures forall i :: 0 <= i < |portfolio.assets| ==> |portfolio.assets[i].draws| > 0
      ensures AllStepped(portfolio.assets) && DrewInOrder(portfolio.assets)
      ensures old(Solvent()) && IsExponential() && LongOnly(action, old(|portfolio.assets|)) ==> Solvent()
    {
      Advance(action);
      StaysSolvent(action);
      observation := Observation();
      reward := Reward();
      done := Done();
    }
  }
}

=== FILE: portfolios.dfy ===
/**
 * A portfolio: an ordered sequence of (asset, amount) holdings (portfolio.py).
 *
 * The arithmetic over one snapshot of prices and amounts (value, weights and
 * the amounts a rebalance produces) is stated on plain sequences first; the
 * class `Portfolio` then reads its prices from the held assets and applies it.
 * The class keeps the holdings as two parallel sequences, the assets and
 * their amounts, position by position.
 */
module Portfolios {
  import opened Reals
  import opened Randomness
  import opened Assets

  /** One `(asset, amount)` pair, as handed to the constructor. */
  datatype Holding = Holding(asset: Asset, amount: real)

  /** Each holding's part of the value, `price * amount`, in holding order. */
  function Contributions(prices: seq<real>, amounts: seq<real>): (c: seq<real>)
    requires |prices| == |amounts|
  {
    seq(|prices|, i requires 0 <= i < |prices| => prices[i] * amounts[i])
  }

  /** The portfolio value: the sum of `price * amount` over the holdings, in holding order. */
  function TotalValue(prices: seq<real>, amounts: seq<real>): (v: real)
    requires |prices| == |amounts|
  {
    Sum(Contributions(prices, amounts))
  }

  /**
   * Each holding's share of the value, `price * amount / value`: the share
   * times the value is the holding's `price * amount`, and the shares sum to one.
   */
  function WeightsOf(prices: seq<real>, amounts: seq<real>): (w: seq<real>)
    requires |prices| == |amounts|
    requires TotalValue(prices, amounts) != 0.0
    ensures |w| == |prices|
    ensures forall i :: 0 <= i < |w| ==> w[i] * TotalValue(prices, amounts) == prices[i] * amounts[i]
    ensures Sum(w) == 1.0
  {
    var c, v := Contributions(prices, amounts), TotalValue(prices, amounts);
    assert v == Sum(c);
    SumDivideAll(c, v);
    DivideAll(c, v)
  }

  /**
   * The amounts a rebalance to `weights` produces from the value `value`:
   * `value * weight / price`, position by position. Like Python's `zip`,
   * only as many positions as the shorter of prices and weights.
   */
  function RebalancedAmounts(value: real, prices: seq<real>, weights: seq<real>): (a: seq<real>)
    requires forall i :: 0 <= i < |prices| && i < |weights| ==> prices[i] != 0.0
  {
    seq(Min(|prices|, |weights|), i requires 0 <= i < Min(|prices|, |weights|) => value * weights[i] / prices[i])
  }

  /** The assets of `hs`, in holding order. */
  function AssetsOf(hs: seq<Holding>): (r: seq<Asset>)
    ensures |r| == |hs|
    ensures forall i :: 0 <= i < |hs| ==> r[i] == hs[i].asset
  {
    seq(|hs|, i requires 0 <= i < |hs| => hs[i].asset)
  }

  /** The amounts of `hs`, in holding order. */
  function AmountsOf(hs: seq<Holding>): (r: seq<real>)
  {
    seq(|hs|, i requires 0 <= i < |hs| => hs[i].amount)
  }

  /** The current price (`value`) of each asset, in order. */
  function PricesOf(assets: seq<Asset>): (r: seq<real>)
    reads assets
  {
    seq(|assets|, i requires 0 <= i < |assets| reads assets => assets[i].value)
  }

  ghost function RandomStatesOf(assets: seq<Asset>): set<RandomState>
  {
    set i | 0 <= i < |assets| :: assets[i].randomState
  }

  /** Every asset of `assets` draws from the same random state. */
  ghost predicate SharesRandomState(assets: seq<Asset>)
  {
    |assets| > 0 && forall i :: 0 <= i < |assets| ==> assets[i].randomState == assets[0].randomState
  }

  /** No asset occurs twice. */
  ghost predicate Distinct(assets: seq<Asset>)
  {
    forall i, j :: 0 <= i < j < |assets| ==> Apart(assets, i, j)
  }

  /** Positions `i` and `j` of `assets` hold different assets. */
  ghost predicate Apart(assets: seq<Asset>, i: nat, j: nat)
    requires i < |assets| && j < |assets|
  {
    assets[i] != assets[j]
  }

  /** Two positions of distinct assets hold different assets. */
  lemma DistinctAt(assets: seq<Asset>, i: nat, j: nat)
    requires Distinct(assets) && i < |assets| && j < |assets| && i != j
    ensures assets[i] != assets[j]
  {
    if i < j {
      assert Apart(assets, i, j);
    } else {
      assert Apart(assets, j, i);
    }
  }

  /** Dropping trailing assets keeps the rest distinct. */
  lemma DistinctPrefix(assets: seq<Asset>, m: nat)
    requires Distinct(assets) && m <= |assets|
    ensures Distinct(assets[..m])
  {
    forall i, j | 0 <= i < j < m
      ensures Apart(assets[..m], i, j)
    {
      assert Apart(assets, i, j);
    }
  }

  /** Assets that differ position by position are distinct. */
  lemma PairwiseDistinct(assets: seq<Asset>)
    requires forall i, j :: 0 <= i < j < |assets| ==> assets[i] != assets[j]
    ensures Distinct(assets)
  {
  }

  /** The random state each asset of `assets` draws from, in holding order. */
  ghost function StatesOf(assets: seq<Asset>): (s: seq<RandomState>)
  {
    seq(|assets|, i requires 0 <= i < |assets| => assets[i].randomState)
  }

  /** How many of the first `n` entries of `states` are `rs`. */
  ghost function Occurrences(states: seq<RandomState>, rs: RandomState, n: nat): (c: nat)
    requires n <= |states|
    ensures c <= n
  {
    if n == 0 then 0
    else Occurrences(states, rs, n - 1) + (if states[n - 1] == rs then 1 else 0)
  }

  /** When all assets share one random state, every one of them draws from it. */
  lemma {:induction false} SharedOccurrences(assets: seq<Asset>, n: nat)
    requires SharesRandomState(assets) && n <= |assets|
    ensures Occurrences(StatesOf(assets), assets[0].randomState, n) == n
  {
    if n > 0 {
      SharedOccurrences(assets, n - 1);
    }
  }

  /** No two assets of `assets` draw from the same random state. */
  ghost predicate SeparateRandomStates(assets: seq<Asset>)
  {
    forall i, j :: 0 <= i < j < |assets| ==> assets[i].randomState != assets[j].randomState
  }

  /**
   * When every asset has a random state of its own, the asset at position `i`
   * is the only one among the first `n` that draws from its state, if it is
   * among them at all.
   */
  lemma {:induction false} SeparateOccurrences(assets: seq<Asset>, i: nat, n: nat)
    requires SeparateRandomStates(assets) && i < |assets| && n <= |assets|
    ensures Occurrences(StatesOf(assets), assets[i].randomState, n) == if i < n then 1 else 0
  {
    if n > 0 {
      SeparateOccurrences(assets, i, n - 1);
      assert n - 1 != i ==> assets[n - 1].randomState != assets[i].randomState;
    }
  }

  /**
   * Between the two states every asset of `assets` took exactly one step,
   * and every random state they draw from advanced by one draw per asset
   * that draws from it.
   */
  twostate predicate AllStepped(assets: seq<Asset>)
    reads assets, RandomStatesOf(assets)
  {
    forall i :: 0 <= i < |assets| ==>
      var a, rs := assets[i], assets[i].randomState;
      |a.draws| == |old(a.draws)| + 1 && old(a.draws) <= a.draws &&
      a.lastTick == old(a.thisTick) &&
      rs.drawn == old(rs.drawn) + Occurrences(StatesOf(assets), rs, |assets|)
  }

  /**
   * The assets of `assets` read their random states in holding order between
   * the two states: the asset at position `i` took the variate that followed
   * the draws of the assets before it on the same random state.
   */
  twostate predicate DrewInOrder(assets: seq<Asset>)
    reads assets
  {
    forall i :: 0 <= i < |assets| ==> DrewAt(assets, i)
  }

  /**
   * The asset at position `i` took one variate: the one that follows, on its
   * random state, the draws made before and those of the assets ahead of it.
   */
  twostate predicate DrewAt(assets: seq<Asset>, i: nat)
    requires i < |assets|
    reads assets[i]
  {
    var rs := assets[i].randomState;
    assets[i].draws == old(assets[i].draws) + [rs.VariateAfter(old(rs.drawn), Occurrences(StatesOf(assets), rs, i))]
  }

  /**
   * When all assets share one random state, the asset at position `i` took
   * the `i`-th variate after those drawn before, and the state advanced by
   * one draw per asset.
   */
  twostate lemma SharedDraws(assets: seq<Asset>)
    requires SharesRandomState(assets) && AllStepped(assets) && DrewInOrder(assets)
    ensures var rs := assets[0].randomState;
      rs.drawn == old(rs.drawn) + |assets| &&
      forall i :: 0 <= i < |assets| ==> assets[i].draws == old(assets[i].draws) + [rs.Variate(old(rs.drawn) + i)]
  {
    var rs := assets[0].randomState;
    SharedOccurrences(assets, |assets|);
    assert AllStepped(assets) && DrewAt(assets, 0);
    forall i | 0 <= i < |assets|
      ensures assets[i].draws == old(assets[i].draws) + [rs.Variate(old(rs.drawn) + i)]
    {
      SharedOccurrences(assets, i);
      assert DrewAt(assets, i);
    }
  }

  /**
   * When every asset has a random state of its own, each asset took the next
   * variate of its own state, and each state advanced by exactly one draw.
   */
  twostate lemma SeparateDraws(assets: seq<Asset>)
    requires SeparateRandomStates(assets) && AllStepped(assets) && DrewInOrder(assets)
    ensures forall i :: 0 <= i < |assets| ==> var rs := assets[i].randomState;
      rs.drawn == old(rs.drawn) + 1 && assets[i].draws == old(assets[i].draws) + [rs.Variate(old(rs.drawn))]
  {
    forall i | 0 <= i < |assets|
      ensures var rs := assets[i].randomState;
        rs.drawn == old(rs.drawn) + 1 && assets[i].draws == old(assets[i].draws) + [rs.Variate(old(rs.drawn))]
    {
      SeparateOccurrences(assets, i, i);
      SeparateOccurrences(assets, i, |assets|);
      assert DrewAt(assets, i);
    }
  }

  /**
   * Held assets together with what each of them had at some point: its
   * draws, its current tick and its random state's draw count.
   */
  datatype Snapshot = Snapshot(assets: seq<Asset>, draws: seq<seq<real>>, ticks: seq<real>, drawn: seq<nat>)
  {
    predicate WellSized()
    {
      |draws| == |ticks| == |drawn| == |assets|
    }
  }

  /** What the assets of `assets` hold now. */
  ghost function SnapshotOf(assets: seq<Asset>): (s: Snapshot)
    reads assets, RandomStatesOf(assets)
    ensures s.assets == assets && s.WellSized()
    ensures forall i :: 0 <= i < |assets| ==>
      s.draws[i] == assets[i].draws && s.ticks[i] == assets[i].thisTick && s.drawn[i] == assets[i].randomState.drawn
  {
    Snapshot(assets,
      seq(|assets|, i requires 0 <= i < |assets| reads assets => assets[i].draws),
      seq(|assets|, i requires 0 <= i < |assets| reads assets => assets[i].thisTick),
      seq(|assets|, i requires 0 <= i < |assets| reads assets, RandomStatesOf(assets) => assets[i].randomState.drawn))
  }

  /**
   * `AllStepped` and `DrewInOrder` stated against a snapshot taken before
   * the tick, which need not be the earlier of the two states.
   */
  ghost predicate SteppedFrom(s: Snapshot)
    reads s.assets, RandomStatesOf(s.assets)
  {
    s.WellSized() && forall i :: 0 <= i < |s.assets| ==> SteppedFromAt(s, i)
  }

  /** `SteppedFrom` for the asset at position `i`. */
  ghost predicate SteppedFromAt(s: Snapshot, i: nat)
    requires s.WellSized() && i < |s.assets|
    reads s.assets[i], s.assets[i].randomState
  {
    var a, rs := s.assets[i], s.assets[i].randomState;
    a.draws == s.draws[i] + [rs.VariateAfter(s.drawn[i], Occurrences(StatesOf(s.assets), rs, i))] &&
    a.lastTick == s.ticks[i] && rs.drawn == s.drawn[i] + Occurrences(StatesOf(s.assets), rs, |s.assets|)
  }

  /** A tick since a snapshot of the earlier state is a tick since that state. */
  twostate lemma SteppedAgain(s: Snapshot)
    requires s == old(SnapshotOf(s.assets)) && SteppedFrom(s)
    ensures AllStepped(s.assets) && DrewInOrder(s.assets)
  {
    forall i | 0 <= i < |s.assets|
      ensures DrewAt(s.assets, i)
      ensures var a, rs := s.assets[i], s.assets[i].randomState;
        |a.draws| == |old(a.draws)| + 1 && old(a.draws) <= a.draws && a.lastTick == old(a.thisTick) &&
        rs.drawn == old(rs.drawn) + Occurrences(StatesOf(s.assets), rs, |s.assets|)
    {
      assert SteppedFromAt(s, i);
      assert old(s.assets[i].draws) == s.draws[i];
    }
  }

  /** What a portfolio holds and has recorded at some point, with a snapshot of its assets. */
  datatype Bookkeeping = Bookkeeping(assets: seq<Asset>, amounts: seq<real>, thisValue: real, history: seq<real>,
                                     snapshot: Snapshot)

  /** Appending the variate at position `d + c` is appending the one `c` places after `d`. */
  lemma AppendVariate(d1: seq<real>, d0: seq<real>, z: real, rs: RandomState, p: nat, d: nat, c: nat)
    requires d1 == d0 + [z] && z == rs.Variate(p) && p == d + c
    ensures d1 == d0 + [rs.VariateAfter(d, c)]
  {
  }

  /**
   * One turn of the loop of `Portfolio.Tick`: `tick()` on `assets[i]`, which
   * takes the next variate `z` of its random state; no other asset of
   * `assets` changes.
   */
  method TickAt(assets: seq<Asset>, i: nat) returns (ghost z: real)
    requires i < |assets| && Distinct(assets) && assets[i].Valid()
    modifies assets[i], assets[i].randomState
    ensures assets[i].Valid()
    ensures assets[i].draws == old(assets[i].draws) + [z] && assets[i].lastTick == old(assets[i].thisTick)
    ensures assets[i].randomState.drawn == old(assets[i].randomState.drawn) + 1
    ensures z == assets[i].randomState.Variate(old(assets[i].randomState.drawn))
    ensures forall k :: 0 <= k < |assets| && k != i ==> unchanged(assets[k])
    ensures forall k :: 0 <= k < |assets| ==> var rs := assets[k].randomState;
      rs.drawn == old(rs.drawn) + if rs == assets[i].randomState then 1 else 0
  {
    var a := assets[i];
    var _ := a.Tick();
    z := a.draws[|a.draws| - 1];
    forall k | 0 <= k < |assets| && k != i
      ensures assets[k] != a
    {
      DistinctAt(assets, k, i);
    }
  }

  /**
   * The invariant of the loop of `Portfolio.Tick` after its first `i` turns.
   * `st` are the assets' random states; `d0`, `t0` and `n0` are each asset's
   * draws, current tick and random state's draw count before the loop; `ps`
   * is where in its stream each variate taken so far stood, and `zs` is that
   * variate. Every asset is valid; every random state has advanced once per
   * asset among the first `i` that draws from it; each of the first `i`
   * assets took one step with the variate that followed the draws of the
   * assets ahead of it on the same random state; the others are untouched.
   */
  ghost predicate TickedBefore(a: seq<Asset>, st: seq<RandomState>, d0: seq<seq<real>>, t0: seq<real>,
                               n0: seq<nat>, ps: seq<nat>, zs: seq<real>, i: nat)
    reads a, st
  {
    |st| == |d0| == |t0| == |n0| == |a| && i <= |a| && |ps| == |zs| == i &&
    (forall k :: 0 <= k < |a| ==> a[k].Valid()) &&
    (forall k :: 0 <= k < |a| ==> st[k].drawn == n0[k] + Occurrences(st, st[k], i)) &&
    (forall k :: 0 <= k < i ==> a[k].draws == d0[k] + [zs[k]] && a[k].lastTick == t0[k]) &&
    (forall k :: 0 <= k < i ==> zs[k] == st[k].Variate(ps[k])) &&
    (forall k {:trigger ps[k]} :: 0 <= k < i ==> ps[k] == n0[k] + Occurrences(st, st[k], k)) &&
    (forall k :: i <= k < |a| ==> a[k].draws == d0[k] && a[k].thisTick == t0[k])
  }

  /** One turn of the loop of `Portfolio.Tick`, carrying its invariant from `i` turns to `i + 1`. */
  method TickNext(a: seq<Asset>, i: nat, ghost st: seq<RandomState>, ghost d0: seq<seq<real>>, ghost t0: seq<real>,
                  ghost n0: seq<nat>, ghost ps: seq<nat>, ghost zs: seq<real>)
    returns (ghost ps': seq<nat>, ghost zs': seq<real>)
    requires Distinct(a) && i < |a| && st == StatesOf(a)
    requires TickedBefore(a, st, d0, t0, n0, ps, zs, i)
    modifies a[i], a[i].randomState
    ensures TickedBefore(a, st, d0, t0, n0, ps', zs', i + 1)
  {
    ps' := ps + [a[i].randomState.drawn];
    var z := TickAt(a, i);
    zs' := zs + [z];
  }

  /** Once the loop of `Portfolio.Tick` has ticked every asset, they all took one step since the snapshot. */
  lemma TickedAll(s: Snapshot, st: seq<RandomState>, ps: seq<nat>, zs: seq<real>)
    requires st == StatesOf(s.assets)
    requires TickedBefore(s.assets, st, s.draws, s.ticks, s.drawn, ps, zs, |s.assets|)
    ensures SteppedFrom(s)
  {
    forall k | 0 <= k < |s.assets|
      ensures SteppedFromAt(s, k)
    {
      AppendVariate(s.assets[k].draws, s.draws[k], zs[k], st[k], ps[k], s.drawn[k], Occurrences(st, st[k], k));
    }
  }

  /** Appending a holding adds its `price * amount` to the value: the sum runs in holding order. */
  lemma TotalValueAppend(prices: seq<real>, amounts: seq<real>, price: real, amount: real)
    requires |prices| == |amounts|
    ensures TotalValue(prices + [price], amounts + [amount]) == TotalValue(prices, amounts) + price * amount
  {
    var c := Contributions(prices + [price], amounts + [amount]);
    var c0 := Contributions(prices, amounts);
    forall i | 0 <= i < |c|
      ensures c[i] == (c0 + [price * amount])[i]
    {
      if i < |c0| {
        assert (prices + [price])[i] == prices[i] && (amounts + [amount])[i] == amounts[i];
      }
    }
    assert c == c0 + [price * amount];
    SumAppend(Contributions(prices, amounts), price * amount);
  }

  /**
   * With no negative price and no negative amount, the value is not negative
   * and no holding is worth more than the whole portfolio.
   */
  lemma LongOnlyValue(prices: seq<real>, amounts: seq<real>)
    requires |prices| == |amounts|
    requires forall i :: 0 <= i < |prices| ==> prices[i] >= 0.0 && amounts[i] >= 0.0
    ensures TotalValue(prices, amounts) >= 0.0
    ensures forall i :: 0 <= i < |prices| ==> 0.0 <= prices[i] * amounts[i] <= TotalValue(prices, amounts)
  {
    var c := Contributions(prices, amounts);
    forall i | 0 <= i < |c|
      ensures c[i] >= 0.0
    {
      NonNegativeTimes(prices[i], amounts[i]);
    }
    SumNonNegative(c);
    forall i | 0 <= i < |prices|
      ensures prices[i] * amounts[i] <= TotalValue(prices, amounts)
    {
      ElementAtMostSum(c, i);
    }
  }

  lemma NonNegativeTimes(a: real, b: real)
    requires a >= 0.0 && b >= 0.0
    ensures a * b >= 0.0
  {
  }

  /** `price * (value * weight / price)` is `weight * value`. */
  lemma PriceTimesRebalanced(price: real, value: real, weight: real)
    requires price != 0.0
    ensures price * (value * weight / price) == weight * value
    ensures value != 0.0 ==> (price * (value * weight / price)) / value == weight
  {
  }

  lemma Cancel(p: real, a: real, x: real)
    requires p != 0.0 && p * a == x
    ensures a == x / p
  {
  }

  /**
   * After a rebalance from `value`, the rebalanced positions are worth
   * `value` times the sum of the weights that were used.
   */
  lemma RebalancedValue(value: real, prices: seq<real>, weights: seq<real>)
    requires forall i :: 0 <= i < |prices| && i < |weights| ==> prices[i] != 0.0
    ensures var m := Min(|prices|, |weights|);
      TotalValue(prices[..m], RebalancedAmounts(value, prices, weights)) == Sum(weights[..m]) * value
  {
    var m := Min(|prices|, |weights|);
    var a := RebalancedAmounts(value, prices, weights);
    var c := Contributions(prices[..m], a);
    forall i | 0 <= i < m
      ensures c[i] == weights[..m][i] * value
    {
      assert c[i] == prices[i] * (value * weights[i] / prices[i]);
      PriceTimesRebalanced(prices[i], value, weights[i]);
    }
    SumScaled(weights[..m], c, value);
  }

  /** With one weight per holding and weights summing to one, a rebalance keeps the value. */
  lemma {:induction false} RebalancePreservesValue(prices: seq<real>, amounts: seq<real>, weights: seq<real>)
    requires |prices| == |amounts| == |weights|
    requires forall i :: 0 <= i < |prices| ==> prices[i] != 0.0
    requires Sum(weights) == 1.0
    ensures TotalValue(prices, RebalancedAmounts(TotalValue(prices, amounts), prices, weights))
         == TotalValue(prices, amounts)
  {
    var v := TotalValue(prices, amounts);
    RebalancedValue(v, prices, weights);
    assert prices[..|prices|] == prices && weights[..|weights|] == weights;
  }

  /** ... and the weights afterwards are exactly the requested ones. */
  lemma {:induction false} RebalanceReproducesWeights(prices: seq<real>, amounts: seq<real>, weights: seq<real>)
    requires |prices| == |amounts| == |weights|
    requires forall i :: 0 <= i < |prices| ==> prices[i] != 0.0
    requires Sum(weights) == 1.0
    requires TotalValue(prices, amounts) != 0.0
    ensures var a := RebalancedAmounts(TotalValue(prices, amounts), prices, weights);
      TotalValue(prices, a) != 0.0 && WeightsOf(prices, a) == weights
  {
    var v := TotalValue(prices, amounts);
    var a := RebalancedAmounts(v, prices, weights);
    RebalancePreservesValue(prices, amounts, weights);
    var w := WeightsOf(prices, a);
    assert w == DivideAll(Contributions(prices, a), v);
    forall i | 0 <= i < |w|
      ensures w[i] == weights[i]
    {
      RebalancedShare(v, prices, weights, i);
    }
  }

  /**
   * A rebalance from a positive value to non-negative weights with a positive
   * sum, at positive prices, leaves holdings that are worth something at any
   * positive prices: no amount is negative and at least one is positive.
   */
  lemma RebalancedValuePositive(v: real, prices: seq<real>, weights: seq<real>, newPrices: seq<real>)
    requires |prices| == |weights| == |newPrices| && v > 0.0
    requires forall i :: 0 <= i < |prices| ==> prices[i] > 0.0
    requires forall i :: 0 <= i < |newPrices| ==> newPrices[i] > 0.0
    requires forall i :: 0 <= i < |weights| ==> weights[i] >= 0.0
    requires Sum(weights) > 0.0
    ensures TotalValue(newPrices, RebalancedAmounts(v, prices, weights)) > 0.0
  {
    var a := RebalancedAmounts(v, prices, weights);
    var c := Contributions(newPrices, a);
    forall i | 0 <= i < |c|
      ensures c[i] >= 0.0 && (weights[i] > 0.0 ==> c[i] > 0.0)
    {
      RebalancedTermAt(v, prices, weights, newPrices, i);
    }
    PositiveElement(weights);
    var j :| 0 <= j < |weights| && weights[j] > 0.0;
    PositiveSum(c, j);
  }

  lemma RebalancedTermAt(v: real, prices: seq<real>, weights: seq<real>, newPrices: seq<real>, i: nat)
    requires |prices| == |weights| == |newPrices| && v > 0.0 && i < |prices|
    requires prices[i] > 0.0 && newPrices[i] > 0.0 && weights[i] >= 0.0
    requires forall k :: 0 <= k < |prices| ==> prices[k] != 0.0
    ensures var c := Contributions(newPrices, RebalancedAmounts(v, prices, weights));
      c[i] >= 0.0 && (weights[i] > 0.0 ==> c[i] > 0.0)
  {
    var a := RebalancedAmounts(v, prices, weights);
    assert a[i] == v * weights[i] / prices[i];
    assert Contributions(newPrices, a)[i] == newPrices[i] * a[i];
    RebalancedTermSign(newPrices[i], v, weights[i], prices[i]);
  }

  lemma RebalancedTermSign(q: real, v: real, w: real, p: real)
    requires q > 0.0 && v > 0.0 && w >= 0.0 && p > 0.0
    ensures q * (v * w / p) >= 0.0 && (w > 0.0 ==> q * (v * w / p) > 0.0)
  {
    assert v * w >= 0.0 && (w > 0.0 ==> v * w > 0.0);
    assert v * w / p >= 0.0 && (w > 0.0 ==> v * w / p > 0.0);
  }

  /** Position `i` after a rebalance from `v` is worth `weights[i]` of `v`. */
  lemma RebalancedShare(v: real, prices: seq<real>, weights: seq<real>, i: nat)
    requires |prices| == |weights| && i < |prices|
    requires forall k :: 0 <= k < |prices| ==> prices[k] != 0.0
    requires v != 0.0
    ensures DivideAll(Contributions(prices, RebalancedAmounts(v, prices, weights)), v)[i] == weights[i]
  {
    var a := RebalancedAmounts(v, prices, weights);
    var c := Contributions(prices, a);
    var p, x, ai := prices[i], weights[i], a[i];
    assert ai == v * x / p;
    assert c[i] == p * ai;
    PriceTimesRebalanced(p, v, x);
  }

  class Portfolio {
    /** The held assets and the amount of each, position by position. */
    var assets: seq<Asset>
    var amounts: seq<real>
    var lastValue: real
    var thisValue: real
    /** The value recorded at construction and after every tick, oldest first. */
    ghost var history: seq<real>

    ghost predicate Valid()
      reads this, assets
    {
      |assets| == |amounts| && Recorded() && AssetsValid()
    }

    /** `history` ends with `lastValue` (or repeats it) and then `thisValue`. */
    ghost predicate Recorded()
      reads this`history, this`lastValue, this`thisValue
    {
      |history| > 0 &&
      thisValue == history[|history| - 1] &&
      lastValue == (if |history| == 1 then history[0] else history[|history| - 2])
    }

    ghost predicate AssetsValid()
      reads this`assets, assets
    {
      forall i :: 0 <= i < |assets| ==> assets[i].Valid()
    }

    ghost function RandomStates(): set<RandomState>
      reads this`assets
    {
      RandomStatesOf(assets)
    }

    /** The holdings as `(asset, amount)` pairs. */
    function Holdings(): (hs: seq<Holding>)
      reads this`assets, this`amounts
      requires |assets| == |amounts|
      ensures AssetsOf(hs) == assets && AmountsOf(hs) == amounts
    {
      var a, m := assets, amounts;
      seq(|a|, i requires 0 <= i < |a| && |a| == |m| => Holding(a[i], m[i]))
    }

    /** Each held asset's current price, in holding order. */
    function Ticks(): (t: seq<real>)
      reads this`assets, assets
    {
      PricesOf(assets)
    }

    /** The sum of `price * amount` over the holdings, at the current prices. */
    function Value(): (v: real)
      reads this`assets, this`amounts, assets
      requires |assets| == |amounts|
    {
      TotalValue(Ticks(), amounts)
    }

    function Size(): (n: nat)
      reads this`assets
    {
      |assets|
    }

    /** Each holding's share of the value; they sum to one. */
    function Weights(): (w: seq<real>)
      reads this`assets, this`amounts, assets
      requires |assets| == |amounts| && Value() != 0.0
      ensures |w| == |assets| && Sum(w) == 1.0
      ensures forall i :: 0 <= i < |w| ==> w[i] * Value() == assets[i].value * amounts[i]
    {
      WeightsOf(Ticks(), amounts)
    }

    /** Every held asset's price is nonzero. */
    ghost predicate NonzeroPrices()
      reads this`assets, assets
    {
      forall i :: 0 <= i < |assets| ==> assets[i].value != 0.0
    }

    /** Every held asset has a nonzero last tick, so its return ratio is defined. */
    ghost predicate NonzeroLastTicks()
      reads this`assets, assets
    {
      forall i :: 0 <= i < |assets| ==> assets[i].lastTick != 0.0
    }

    /** Each held asset's return ratio, in holding order. */
    function AssetReturnRatios(): (r: seq<real>)
      reads this`assets, assets
      requires NonzeroLastTicks()
      ensures |r| == |assets|
      ensures forall i :: 0 <= i < |r| ==> r[i] * assets[i].lastTick == assets[i].thisTick
    {
      var a := assets;
      seq(|a|, i requires 0 <= i < |a| && a[i].lastTick != 0.0 reads a => a[i].ReturnRatio())
    }

    /** The ratio `thisValue / lastValue`, whose logarithm is `Portfolio.portfolio_return`. */
    function PortfolioReturnRatio(): (r: real)
      reads this`lastValue, this`thisValue
      requires lastValue != 0.0
      ensures r * lastValue == thisValue
      ensures thisValue == lastValue ==> r == 1.0
    {
      thisValue / lastValue
    }

    /** Takes the holdings and records their value as both the last and the current value. */
    constructor (holdings: seq<Holding>)
      requires forall i :: 0 <= i < |holdings| ==> holdings[i].asset.Valid()
      ensures assets == AssetsOf(holdings) && amounts == AmountsOf(holdings) && Holdings() == holdings
      ensures Valid()
      ensures lastValue == thisValue == Value() && history == [thisValue]
    {
      assets, amounts := AssetsOf(holdings), AmountsOf(holdings);
      new;
      var value := Value();
      lastValue, thisValue := value, value;
      history := [value];
    }

    /**
     * Between the two states the portfolio ticked once: the same holdings,
     * every asset took one step, and the recorded values moved on by one.
     */
    twostate predicate Ticked()
      reads this, assets, RandomStates()
    {
      TickedFrom(old(Books()))
    }

    /** The holdings, the recorded values and what every held asset has now. */
    ghost function Books(): (b: Bookkeeping)
      reads this, assets, RandomStates()
      ensures b.assets == assets && b.snapshot == SnapshotOf(assets)
    {
      Bookkeeping(assets, amounts, thisValue, history, SnapshotOf(assets))
    }

    /** The portfolio ticked once since the state `b` records. */
    ghost predicate TickedFrom(b: Bookkeeping)
      reads this, assets, RandomStates()
    {
      assets == b.assets && amounts == b.amounts && |assets| == |amounts| &&
      b.snapshot.assets == assets && SteppedFrom(b.snapshot) &&
      lastValue == b.thisValue && thisValue == Value() &&
      history == b.history + [thisValue]
    }

    /**
     * Advances every held asset by one tick, in holding order, then shifts the
     * recorded values: the value before this tick becomes `lastValue` and the
     * value at the new prices becomes `thisValue`.
     */
    method Tick()
      requires Valid() && Distinct(assets)
      modifies this, assets, RandomStates()
      ensures Valid() && Ticked() && AllStepped(old(assets)) && DrewInOrder(old(assets))
      ensures Size() == old(Size())
      ensures old(NonzeroPrices()) ==> NonzeroLastTicks()
    {
      TickAssets();
      RecordValue();
    }

    /** The bookkeeping of `Tick`: the current value moves to `lastValue` and the value now is recorded. */
    method RecordValue()
      requires |assets| == |amounts| && Recorded()
      modifies this`lastValue, this`thisValue, this`history
      ensures Recorded()
      ensures lastValue == old(thisValue) && thisValue == Value()
      ensures history == old(history) + [thisValue]
      ensures unchanged(assets) && unchanged(RandomStates())
    {
      var value := Value();
      lastValue, thisValue := thisValue, value;
      history := history + [value];
    }

    /** The loop of `Tick`: `tick()` on each held asset, in holding order. */
    method TickAssets()
      requires AssetsValid() && Distinct(assets)
      modifies assets, RandomStates()
      ensures AssetsValid() && AllStepped(old(assets)) && DrewInOrder(old(assets))
      ensures SteppedFrom(old(SnapshotOf(assets)))
    {
      var a := assets;
      ghost var st := StatesOf(a);
      ghost var before := SnapshotOf(a);
      ghost var d0, t0, n0 := before.draws, before.ticks, before.drawn;
      ghost var ps: seq<nat>, zs: seq<real> := [], [];
      var i := 0;
      while i < |a|
        invariant TickedBefore(a, st, d0, t0, n0, ps, zs, i)
      {
        ps, zs := TickNext(a, i, st, d0, t0, n0, ps, zs);
        i := i + 1;
      }
      TickedAll(before, st, ps, zs);
      SteppedAgain(before);
    }

    /**
     * Replaces the holdings by the same assets with amounts
     * `value * weight / price`, where `value` is taken before anything changes.
     * As with Python's `zip`, a shorter weight vector drops the trailing holdings.
     * The recorded values are not touched.
     */
    method Rebalance(weights: seq<real>)
      requires Valid()
      requires forall i :: 0 <= i < |assets| && i < |weights| ==> assets[i].value != 0.0
      modifies this
      ensures Valid()
      ensures assets == old(assets)[..Min(old(|assets|), |weights|)]
      ensures Size() == Min(old(Size()), |weights|)
      ensures NonzeroPrices()
      ensures amounts == RebalancedAmounts(old(Value()), old(Ticks()), weights)
      ensures lastValue == old(lastValue) && thisValue == old(thisValue) && history == old(history)
      ensures unchanged(old(assets)) && unchanged(old(RandomStates()))
      ensures |weights| == old(|assets|) && Sum(weights) == 1.0 ==> Value() == old(Value())
      ensures |weights| == old(|assets|) && Sum(weights) == 1.0 && old(Value()) != 0.0 ==>
        Value() != 0.0 && Weights() == weights
    {
      var value := Value();
      var prices := Ticks();
      var n := |assets|;
      var rebalanced := RebalancedAmounts(value, prices, weights);
      ghost var oldAmounts := amounts;
      assets, amounts := assets[..|rebalanced|], rebalanced;
      assert Ticks() == prices[..|rebalanced|];
      if |weights| == n && Sum(weights) == 1.0 {
        assert prices[..|rebalanced|] == prices;
        RebalancePreservesValue(prices, oldAmounts, weights);
        if value != 0.0 {
          RebalanceReproducesWeights(prices, oldAmounts, weights);
        }
      }
    }
  }

  /**
   * Telescoping: the return ratios recorded tick by tick multiply up to the
   * ratio of the current value to the value at construction, and the latest
   * of them is the current `PortfolioReturnRatio`. The current value may be
   * zero, as it is once the portfolio has lost everything.
   */
  lemma CumulativeReturn(p: Portfolio)
    requires p.Valid()
    requires forall i :: 0 <= i < |p.history| - 1 ==> p.history[i] != 0.0
    ensures Product(Ratios(p.history)) * p.history[0] == p.thisValue
    ensures |p.history| > 1 ==> Ratios(p.history)[|p.history| - 2] == p.PortfolioReturnRatio()
  {
    Telescope(p.history);
    var n := |p.history|;
    if n > 1 {
      var r := Ratios(p.history);
      assert r[n - 2] * p.history[n - 2] == p.history[n - 1];
      Cancel(p.lastValue, r[n - 2], p.thisValue);
    }
  }
}

=== FILE: randomness.dfy ===
/**
 * The shared pseudo-random source (numpy's `RandomState`), reduced to what the
 * simulation observes of it: a fixed stream of standard-normal variates read
 * in order, and shuffles whose outcome is given as a permutation.
 */
module Randomness {

  /** `perm` lists each of the positions `0 .. n - 1` exactly once. */
  predicate IsPermutation(perm: seq<nat>, n: nat)
  {
    |perm| == n &&
    (forall i :: 0 <= i < n ==> perm[i] < n) &&
    (forall i, j :: 0 <= i < j < n ==> Differ(perm, i, j))
  }

  /** Positions `i` and `j` of `perm` hold different positions. */
  predicate Differ(perm: seq<nat>, i: nat, j: nat)
    requires i < |perm| && j < |perm|
  {
    perm[i] != perm[j]
  }

  /** Two positions of a permutation hold different positions. */
  lemma PermutationAt(perm: seq<nat>, n: nat, i: nat, j: nat)
    requires IsPermutation(perm, n) && i < n && j < n && i != j
    ensures perm[i] != perm[j]
  {
    if i < j {
      assert Differ(perm, i, j);
    } else {
      assert Differ(perm, j, i);
    }
  }

  /** The sequence whose `i`-th element is `s[perm[i]]`. */
  function Permuted<T>(s: seq<T>, perm: seq<nat>): (r: seq<T>)
    requires IsPermutation(perm, |s|)
  {
    seq(|s|, i requires 0 <= i < |s| => s[perm[i]])
  }

  /** A permutation of three positions is one of the six orders. */
  lemma PermutationOfThree(perm: seq<nat>)
    requires IsPermutation(perm, 3)
    ensures perm == [0, 1, 2] || perm == [0, 2, 1] || perm == [1, 0, 2] ||
            perm == [1, 2, 0] || perm == [2, 0, 1] || perm == [2, 1, 0]
  {
    assert perm == [perm[0], perm[1], perm[2]];
    PermutationAt(perm, 3, 0, 1);
    PermutationAt(perm, 3, 0, 2);
    PermutationAt(perm, 3, 1, 2);
  }

  class RandomState {
    /** The variates `normal(0.0, 1.0)` returns, in the order it returns them. */
    const normals: nat -> real
    /** How many variates have been drawn so far. */
    var drawn: nat

    constructor (normals: nat -> real)
      ensures this.normals == normals && drawn == 0
    {
      this.normals := normals;
      drawn := 0;
    }

    /** The variate at position `n` of the stream, counting from 0. */
    function Variate(n: nat): real
    {
      normals(n)
    }

    /** The variate `skip` places after position `start` of the stream. */
    function VariateAfter(start: nat, skip: nat): real
    {
      Variate(start + skip)
    }

    /** Draws the next standard-normal variate. */
    method Normal() returns (z: real)
      modifies this
      ensures drawn == old(drawn) + 1
      ensures z == Variate(old(drawn))
    {
      z := normals(drawn);
      drawn := drawn + 1;
    }

    /**
     * Shuffles `a` in place. Which order the shuffle picks is given by `perm`:
     * afterwards `a[i]` holds what was at `perm[i]`.
     */
    method Shuffle<T>(a: array<T>, perm: seq<nat>)
      requires IsPermutation(perm, a.Length)
      modifies a
      ensures a[..] == Permuted(old(a[..]), perm)
    {
      var before := a[..];
      var i := 0;
      while i < a.Length
        invariant 0 <= i <= a.Length
        invariant forall k :: 0 <= k < i ==> a[k] == before[perm[k]]
      {
        a[i] := before[perm[i]];
        i := i + 1;
      }
    }
  }
}

=== FILE: reals.dfy ===
/**
 * Sums, products and powers of real sequences, evaluated left to right as
 * Python's `sum` and a running multiplication do, and the telescoping of
 * consecutive ratios that turns per-step returns into a total return.
 */
module Reals {

  /** Left-to-right sum `((0 + s[0]) + s[1]) + ...`, as Python's `sum`. */
  function Sum(s: seq<real>): (r: real)
  {
    if |s| == 0 then 0.0 else Sum(s[..|s| - 1]) + s[|s| - 1]
  }

  /** Left-to-right product `((1 * s[0]) * s[1]) * ...`. */
  function Product(s: seq<real>): (r: real)
    ensures (forall i :: 0 <= i < |s| ==> s[i] > 0.0) ==> r > 0.0
  {
    if |s| == 0 then 1.0 else Product(s[..|s| - 1]) * s[|s| - 1]
  }

  /** `c` multiplied with itself `n` times. */
  function Power(c: real, n: nat): (r: real)
  {
    if n == 0 then 1.0 else Power(c, n - 1) * c
  }

  function Min(a: nat, b: nat): (m: nat)
  {
    if a <= b then a else b
  }

  /** Each element divided by `d`: every quotient times `d` gives the element back. */
  function DivideAll(s: seq<real>, d: real): (r: seq<real>)
    requires d != 0.0
    ensures |r| == |s|
    ensures forall i {:trigger r[i]} :: 0 <= i < |r| ==> r[i] * d == s[i]
  {
    seq(|s|, i requires 0 <= i < |s| => s[i] / d)
  }

  /** The ratios of consecutive elements: `vs[i + 1] / vs[i]`; only the last element may be zero. */
  function Ratios(vs: seq<real>): (r: seq<real>)
    requires forall i :: 0 <= i < |vs| - 1 ==> vs[i] != 0.0
    ensures |r| == if |vs| == 0 then 0 else |vs| - 1
    ensures forall i {:trigger r[i]} :: 0 <= i < |r| ==> r[i] * vs[i] == vs[i + 1]
  {
    if |vs| <= 1 then [] else seq(|vs| - 1, i requires 0 <= i < |vs| - 1 => vs[i + 1] / vs[i])
  }

  lemma {:induction false} SumAppend(s: seq<real>, x: real)
    ensures Sum(s + [x]) == Sum(s) + x
  {
    assert (s + [x])[..|s|] == s;
  }

  /** Scaling every element scales the sum. */
  lemma {:induction false} SumScaled(s: seq<real>, t: seq<real>, c: real)
    requires |t| == |s|
    requires forall i :: 0 <= i < |s| ==> t[i] == s[i] * c
    ensures Sum(t) == Sum(s) * c
  {
    if |s| > 0 {
      var n := |s|;
      var a, b := Sum(s[..n - 1]), s[n - 1];
      assert Sum(t[..n - 1]) == a * c by {
        SumScaled(s[..n - 1], t[..n - 1], c);
      }
      assert Sum(t) == a * c + b * c by {
        assert t[n - 1] == b * c;
      }
      assert Sum(s) == a + b;
      Distribute(a, b, c);
    }
  }

  lemma Distribute(a: real, b: real, c: real)
    ensures a * c + b * c == (a + b) * c
  {
  }

  /** Dividing every element by `d` divides the sum by `d`; dividing by the sum gives sum one. */
  lemma SumDivideAll(s: seq<real>, d: real)
    requires d != 0.0
    ensures Sum(DivideAll(s, d)) * d == Sum(s)
    ensures Sum(s) == d ==> Sum(DivideAll(s, d)) == 1.0
  {
    var t := DivideAll(s, d);
    SumScaled(t, s, d);
    if Sum(s) == d {
      UnitFactor(Sum(t), d, Sum(s));
    }
  }

  /** `t * s == s` with `s` nonzero makes `t` one. */
  lemma UnitFactor(t: real, s: real, u: real)
    requires s != 0.0 && t * s == u && u == s
    ensures t == 1.0
  {
    assert (t - 1.0) * s == 0.0;
  }

  /** A sum of non-negative elements is non-negative. */
  lemma {:induction false} SumNonNegative(s: seq<real>)
    requires forall i :: 0 <= i < |s| ==> s[i] >= 0.0
    ensures Sum(s) >= 0.0
  {
    if |s| > 0 {
      SumNonNegative(s[..|s| - 1]);
    }
  }

  /** Every element of a non-negative sequence is at most its sum. */
  lemma {:induction false} ElementAtMostSum(s: seq<real>, k: nat)
    requires forall i :: 0 <= i < |s| ==> s[i] >= 0.0
    requires k < |s|
    ensures s[k] <= Sum(s)
  {
    if k < |s| - 1 {
      ElementAtMostSum(s[..|s| - 1], k);
    } else {
      SumNonNegative(s[..|s| - 1]);
    }
  }

  /** A positive sum has a positive element. */
  lemma {:induction false} PositiveElement(s: seq<real>)
    requires Sum(s) > 0.0
    ensures exists j :: 0 <= j < |s| && s[j] > 0.0
  {
    var n := |s|;
    if s[n - 1] <= 0.0 {
      PositiveElement(s[..n - 1]);
      var j :| 0 <= j < n - 1 && s[..n - 1][j] > 0.0;
      assert s[j] > 0.0;
    }
  }

  /** A non-negative sequence with a positive element has a positive sum. */
  lemma PositiveSum(s: seq<real>, k: nat)
    requires forall i :: 0 <= i < |s| ==> s[i] >= 0.0
    requires k < |s| && s[k] > 0.0
    ensures Sum(s) > 0.0
  {
    ElementAtMostSum(s, k);
  }

  /** A product of `n` copies of `c` is `c` to the `n`. */
  lemma {:induction false} ProductOfConstant(s: seq<real>, c: real)
    requires forall i :: 0 <= i < |s| ==> s[i] == c
    ensures Product(s) == Power(c, |s|)
  {
    if |s| > 0 {
      ProductOfConstant(s[..|s| - 1], c);
    }
  }

  lemma {:induction false} PowerOfOne(n: nat)
    ensures Power(1.0, n) == 1.0
  {
    if n > 0 {
      PowerOfOne(n - 1);
    }
  }

  lemma PositiveTimesPositive(a: real, b: real)
    ensures a > 0.0 && b > 0.0 ==> a * b > 0.0
  {
  }

  /**
   * Two scalings in a row: when `p` takes `a` to `b` and `q` takes `b` to
   * `c`, their product `pq` takes `a` to `c`. The copies `p'` and `q'` let a
   * caller pass each factor in the form its fact is stated in.
   */
  lemma Chain(pq: real, p: real, p': real, q: real, q': real, a: real, b: real, c: real)
    requires pq == p * q && p == p' && q == q' && p' * a == b && q' * b == c
    ensures pq * a == c
  {
    calc {
      pq * a;
      q * (p * a);
      q' * b;
      c;
    }
  }

  /**
   * Telescoping for any factors `r` that take each of `vs` to the next: the
   * product of the first `k` factors takes the first value to value `k`.
   */
  lemma {:induction false} TelescopeFactors(r: seq<real>, vs: seq<real>, k: nat)
    requires |vs| == |r| + 1 && k <= |r|
    requires forall i {:trigger r[i]} :: 0 <= i < |r| ==> r[i] * vs[i] == vs[i + 1]
    ensures Product(r[..k]) * vs[0] == vs[k]
  {
    var s := r[..k];
    if k > 0 {
      TelescopeFactors(r, vs, k - 1);
      assert s[..|s| - 1] == r[..k - 1];
      Chain(Product(s), Product(s[..|s| - 1]), Product(r[..k - 1]), s[|s| - 1], r[k - 1], vs[0], vs[k - 1], vs[k]);
    } else {
      assert s == [];
    }
  }

  /** Telescoping over all the factors. */
  lemma TelescopeAll(r: seq<real>, vs: seq<real>)
    requires |vs| == |r| + 1
    requires forall i {:trigger r[i]} :: 0 <= i < |r| ==> r[i] * vs[i] == vs[i + 1]
    ensures Product(r) * vs[0] == vs[|r|]
  {
    TelescopeFactors(r, vs, |r|);
    assert r[..|r|] == r;
  }

  /**
   * Telescoping: the product of the ratios of consecutive values is the
   * ratio of the last value to the first.
   */
  lemma Telescope(vs: seq<real>)
    requires |vs| > 0
    requires forall i :: 0 <= i < |vs| - 1 ==> vs[i] != 0.0
    ensures Product(Ratios(vs)) * vs[0] == vs[|vs| - 1]
  {
    TelescopeAll(Ratios(vs), vs);
  }
}

=== FILE: startportfolios.dfy ===
/**
 * The portfolio every episode starts from (startportfolio.py): three assets
 * priced 1.0 — a riskless bank account, a stock that drifts up and one that
 * drifts down — with the whole start cash on one of them. Which one is
 * decided by shuffling the holdings with the shared random state; the
 * shuffle's outcome is the permutation `perm`.
 */
module StartPortfolios {
  import opened Reals
  import opened Randomness
  import opened Assets
  import opened Portfolios

  const StartCash: real := 10000.0
  const StartPrice: real := 1.0

  /**
   * The episode has at least one day and the volatility scale is positive.
   * The scale stands for `sqrt(2 / numDays)`, a square root the model does
   * not compute.
   */
  predicate IsSigmaScale(sigmaScale: real, numDays: nat)
  {
    numDays > 0 && sigmaScale > 0.0
  }

  /** What distinguishes one start asset from another. */
  datatype AssetSpec = AssetSpec(name: string, mu: real, sigma: real, initialValue: real)

  function SpecOf(a: Asset): (s: AssetSpec)
  {
    AssetSpec(a.name, a.mu, a.sigma, a.initialValue)
  }

  /**
   * The bank, good_stock and bad_stock parameters, in that order, for an
   * episode of `numDays` days. `sigmaScale` stands for `sqrt(2 / numDays)`.
   */
  function StartSpecs(numDays: nat, sigmaScale: real): (specs: seq<AssetSpec>)
    requires numDays > 0
    ensures |specs| == 3
    ensures forall i :: 0 <= i < 3 ==> specs[i].initialValue == StartPrice
    ensures specs[0].sigma == 0.0 && specs[0].mu > 0.0
    ensures specs[1].mu > 0.0 && specs[2].mu < 0.0 && specs[1].mu == -specs[2].mu
    ensures specs[1].sigma == specs[2].sigma
    ensures sigmaScale > 0.0 ==> specs[1].sigma > 0.0
    ensures specs[0].name != specs[1].name && specs[0].name != specs[2].name && specs[1].name != specs[2].name
  {
    var muScale := 1.0 / numDays as real;
    [AssetSpec("bank", 0.1 * muScale, 0.0 * sigmaScale, StartPrice),
     AssetSpec("good_stock", 1.0 * muScale, 0.1 * sigmaScale, StartPrice),
     AssetSpec("bad_stock", -1.0 * muScale, 0.1 * sigmaScale, StartPrice)]
  }

  /** The amounts held before the shuffle: all the cash on the bank account. */
  function UnshuffledAmounts(): (a: seq<real>)
  {
    [StartCash, 0.0, 0.0]
  }

  /** The amounts after the shuffle that moved position `perm[i]` to `i`. */
  function StartAmounts(perm: seq<nat>): (a: seq<real>)
    requires IsPermutation(perm, 3)
    ensures |a| == 3
    ensures forall i :: 0 <= i < 3 ==> (a[i] == StartCash <==> perm[i] == 0)
    ensures forall i :: 0 <= i < 3 ==> (a[i] == 0.0 <==> perm[i] != 0)
  {
    Permuted(UnshuffledAmounts(), perm)
  }

  /** Whatever the shuffle does, exactly one holding has the cash and the others have nothing. */
  lemma OneHoldingHasTheCash(perm: seq<nat>)
    requires IsPermutation(perm, 3)
    ensures var a := StartAmounts(perm);
            exists i :: 0 <= i < 3 && a[i] == StartCash && forall j :: 0 <= j < 3 && j != i ==> a[j] == 0.0
  {
    var a := StartAmounts(perm);
    PermutationOfThree(perm);
    var i := if perm[0] == 0 then 0 else if perm[1] == 0 then 1 else 2;
    assert a[i] == StartCash;
    forall j | 0 <= j < 3 && j != i
      ensures a[j] == 0.0
    {
      PermutationAt(perm, 3, i, j);
    }
  }

  /** With every price at 1.0 the start portfolio is worth the start cash, whatever the shuffle did. */
  lemma StartValue(perm: seq<nat>)
    requires IsPermutation(perm, 3)
    ensures TotalValue([StartPrice, StartPrice, StartPrice], StartAmounts(perm)) == StartCash
  {
    var a := StartAmounts(perm);
    PermutationOfThree(perm);
    assert a == [a[0], a[1], a[2]];
    var c := Contributions([StartPrice, StartPrice, StartPrice], a);
    assert c[..2][..1] == c[..1];
    assert Sum(c[..1]) == a[0];
    assert Sum(c[..2]) == a[0] + a[1];
    assert Sum(c) == a[0] + a[1] + a[2];
  }

  /**
   * `assets` are distinct assets with the parameters `specs`, all drawing
   * from `randomState`, that have not drawn yet and are priced at their
   * initial value.
   */
  ghost predicate Unticked(assets: seq<Asset>, specs: seq<AssetSpec>, randomState: RandomState)
    reads assets
  {
    |assets| == |specs| && Distinct(assets) &&
    forall i :: 0 <= i < |assets| ==>
      var a := assets[i];
      a.Valid() && SpecOf(a) == specs[i] && a.randomState == randomState &&
      a.draws == [] && a.lastTick == a.thisTick == a.value == a.initialValue
  }

  /** Shuffling keeps assets distinct, unticked and sharing their random state. */
  lemma UntickedPermuted(assets: seq<Asset>, specs: seq<AssetSpec>, randomState: RandomState, perm: seq<nat>)
    requires Unticked(assets, specs, randomState) && IsPermutation(perm, |assets|)
    ensures Unticked(Permuted(assets, perm), Permuted(specs, perm), randomState)
  {
    var shuffled := Permuted(assets, perm);
    forall i, j | 0 <= i < j < |shuffled|
      ensures shuffled[i] != shuffled[j]
    {
      PermutationAt(perm, |assets|, i, j);
      DistinctAt(assets, perm[i], perm[j]);
    }
    PairwiseDistinct(shuffled);
  }

  lemma AssetsOfPermuted(hs: seq<Holding>, perm: seq<nat>)
    requires IsPermutation(perm, |hs|)
    ensures AssetsOf(Permuted(hs, perm)) == Permuted(AssetsOf(hs), perm)
    ensures AmountsOf(Permuted(hs, perm)) == Permuted(AmountsOf(hs), perm)
  {
  }

  /** Start assets, shuffled, priced at 1.0 and holding the shuffled amounts, make a start portfolio. */
  lemma ShuffledStartIsStart(p: Portfolio, numDays: nat, sigmaScale: real, randomState: RandomState, perm: seq<nat>)
    requires numDays > 0 && IsPermutation(perm, 3)
    requires p.Valid() && Unticked(p.assets, Permuted(StartSpecs(numDays, sigmaScale), perm), randomState)
    requires p.amounts == StartAmounts(perm) && p.lastValue == p.thisValue == p.Value()
    requires p.history == [p.thisValue]
    ensures IsStart(p, numDays, sigmaScale, randomState, perm)
  {
    var ticks := p.Ticks();
    assert ticks == [StartPrice, StartPrice, StartPrice] by {
      assert forall i :: 0 <= i < 3 ==> ticks[i] == StartPrice;
    }
    StartValue(perm);
  }

  /**
   * `p` is the portfolio the start-portfolio constructor builds from the
   * shared `randomState` and the shuffle outcome `perm`: three fresh
   * assets that have not drawn yet, in shuffled order, with the shuffled
   * amounts, worth the start cash, which is all the history it has.
   */
  ghost predicate IsStart(p: Portfolio, numDays: nat, sigmaScale: real, randomState: RandomState, perm: seq<nat>)
    reads p, p.assets
    requires numDays > 0 && IsPermutation(perm, 3)
  {
    p.Valid() && |p.assets| == 3 && Distinct(p.assets) && SharesRandomState(p.assets) &&
    p.amounts == StartAmounts(perm) &&
    (forall i :: 0 <= i < 3 ==>
      var a := p.assets[i];
      SpecOf(a) == Permuted(StartSpecs(numDays, sigmaScale), perm)[i] &&
      a.randomState == randomState && a.draws == [] &&
      a.lastTick == StartPrice && a.thisTick == StartPrice && a.value == StartPrice) &&
    p.lastValue == p.thisValue == p.Value() == StartCash && p.history == [StartCash]
  }

  /**
   * A start portfolio has not moved yet: every asset's return ratio is 1 (a
   * log return of 0), and it is worth something.
   */
  lemma StartIsFlat(p: Portfolio, numDays: nat, sigmaScale: real, randomState: RandomState, perm: seq<nat>)
    requires numDays > 0 && IsPermutation(perm, 3)
    requires IsStart(p, numDays, sigmaScale, randomState, perm)
    ensures p.NonzeroLastTicks() && p.AssetReturnRatios() == [1.0, 1.0, 1.0]
    ensures p.Value() > 0.0
    ensures forall i :: 0 <= i < |p.assets| ==> p.assets[i].initialValue > 0.0 && p.assets[i].value > 0.0
  {
    var r := p.AssetReturnRatios();
    assert forall i :: 0 <= i < 3 ==> r[i] == 1.0;
  }

  /** Creates the bank, good_stock and bad_stock assets from their parameters. */
  method NewStartAssets(specs: seq<AssetSpec>, randomState: RandomState)
      returns (assets: seq<Asset>)
    requires |specs| == 3
    ensures forall i :: 0 <= i < |assets| ==> fresh(assets[i])
    ensures Unticked(assets, specs, randomState)
  {
    var bank := new Asset(specs[0].mu, specs[0].sigma, specs[0].initialValue, randomState, specs[0].name);
    var good := new Asset(specs[1].mu, specs[1].sigma, specs[1].initialValue, randomState, specs[1].name);
    var bad := new Asset(specs[2].mu, specs[2].sigma, specs[2].initialValue, randomState, specs[2].name);
    assets := [bank, good, bad];
    PairwiseDistinct(assets);
  }

  /**
   * Puts the start cash on the first asset and nothing on the others, then
   * shuffles the holdings in place; `perm` is the shuffle's outcome.
   */
  method ShuffledHoldings(assets: seq<Asset>, randomState: RandomState, perm: seq<nat>)
      returns (hs: seq<Holding>)
    requires |assets| == 3 && IsPermutation(perm, 3)
    ensures AssetsOf(hs) == Permuted(assets, perm)
    ensures AmountsOf(hs) == StartAmounts(perm)
  {
    var holdings := new Holding[3] [Holding(assets[0], StartCash), Holding(assets[1], 0.0), Holding(assets[2], 0.0)];
    ghost var unshuffled := holdings[..];
    assert AssetsOf(unshuffled) == assets;
    assert AmountsOf(unshuffled) == UnshuffledAmounts();
    randomState.Shuffle(holdings, perm);
    hs := holdings[..];
    AssetsOfPermuted(unshuffled, perm);
  }

  /** Builds the start portfolio: see `IsStart`. */
  method NewStartPortfolio(numDays: nat, sigmaScale: real, randomState: RandomState,
                           perm: seq<nat>) returns (p: Portfolio)
    requires numDays > 0 && IsPermutation(perm, 3)
    ensures fresh(p) && forall i :: 0 <= i < |p.assets| ==> fresh(p.assets[i])
    ensures IsStart(p, numDays, sigmaScale, randomState, perm)
  {
    var specs := StartSpecs(numDays, sigmaScale);
    var assets := NewStartAssets(specs, randomState);
    var hs := ShuffledHoldings(assets, randomState, perm);
    ghost var shuffled := Permuted(assets, perm);
    assert forall i :: 0 <= i < 3 ==> fresh(shuffled[i]);
    UntickedPermuted(assets, specs, randomState, perm);
    assert forall i :: 0 <= i < |hs| ==> hs[i].asset == shuffled[i];
    assert forall i :: 0 <= i < |hs| ==> hs[i].asset.Valid();
    p := new Portfolio(hs);
    assert p.assets == shuffled;
    ShuffledStartIsStart(p, numDays, sigmaScale, randomState, perm);
  }

  class StartPortfolio {
    const portfolio: Portfolio

    constructor (numDays: nat, sigmaScale: real, randomState: RandomState,
                 perm: seq<nat>)
      requires IsSigmaScale(sigmaScale, numDays)
      requires IsPermutation(perm, 3)
      ensures fresh(portfolio) && forall i :: 0 <= i < |portfolio.assets| ==> fresh(portfolio.assets[i])
      ensures IsStart(portfolio, numDays, sigmaScale, randomState, perm)
    {
      var p := NewStartPortfolio(numDays, sigmaScale, randomState, perm);
      portfolio := p;
    }
  }
}
